=== FILE: README.md ===
# ReWord word popover, floating ball and word detail: a Dafny model

This project models the on-page interaction layer of a browser word-lookup extension in Dafny and proves properties of the model. It covers three React components.

- **`components/WordBubble.tsx`**: the popover shown next to a hovered word. The model has three parts:
  - The **placement engine** (module `Placement`) computes the popover's position in steps. It places the popover naively on the preferred side, 12 px from the anchor and centred on it. It then flips only between bottom and top. Finally it clamps into a 10 px margin.
  - The **controller** (class `WordBubble.Bubble`) models the `isAdded`, `position` and `placedSide` state and the auto-play flag. Each React effect and event handler becomes a method. Calls into the audio service are appended to a request log. Calls to the add-word callback are appended to a log of ids.
  - The **render gate** (`Bubble.Render`) shows nothing without an entry or while hidden. Before the first placement, the popover sits off screen and transparent.
- **`components/page-widget/FloatingBall.tsx`** (module `FloatingBall`) covers:
  - the ball's position;
  - the icon;
  - the unread badge and its "99+" cap;
  - the click, which is forwarded only when the ball is not being dragged.
- **`components/WordDetail.tsx`** (module `WordDetail`) covers:
  - the choice between the loading view, the failure view and the page;
  - the extraction of fields from the dictionary service's JSON, whose object fields are all optional, with JavaScript `||` defaults (array elements are taken to be objects of the declared shape; a phrase translation's `tr` may be an array, as declared, or an object, as the view reads it);
  - the Collins star row, the Collins entries and the capped lists.

Two helper modules support the three above. `Wrappers` holds `Option`, where `None` stands for an `undefined`/`null` field. `Js` holds JavaScript truthiness: an empty string is falsy and an array is always truthy.

Coordinates are Dafny `real`s, which are exact. Measurements are parameters: the anchor rectangle, the popover size and the window size. The position effect is the method `Bubble.Reposition`. The host calls it after a render in which the effect's dependencies changed.

A render is the method `Bubble.Rerender`. It takes the new props all at once, whether one or several of them changed. It first runs the cleanup of the visibility effect if visibility changed; that cleanup is a stop. Then each effect whose dependencies changed runs once, in declaration order, and sees all the new props: the `isAdded` effect, the id-reset effect, the visibility effect and the auto-play effect. A popover hidden on one word and shown on another in a single render therefore plays only the new word (`ShowOnNewWord`).

Three event methods cover a render in which only one prop changes:
- **`EntryChanged`** runs the `isAdded` effect, then the id-reset effect, then the auto-play effect.
- **`VisibilityChanged`** runs the cleanup of the previous visibility effect (a stop), then the visibility effect, then the auto-play effect.
- **`ConfigChanged`** runs the auto-play effect when the count, the accent or the speed changed.

Calling these one after another is not the same as one render that changes several props: each call runs the auto-play effect with only part of the new props.

### Behaviour worth noting
- **Hiding clears the auto-play flag.** `components/WordBubble.tsx:49` clears the flag when the popover is hidden, so showing the same word again plays it again (`HideAndReshow`). The class invariant `Valid` states that the flag can be set only while the popover is visible with an entry.
- **Every visibility change stops audio.** The visibility effect's cleanup (`components/WordBubble.tsx:51`) stops audio on every visibility change. Hiding therefore issues two stop requests and showing issues one.
- **Every add click is reported.** `handleAdd` calls the add-word callback on each click, not only on the first (`AddTwice`).
- **A worked placement.** An anchor at top 500, bottom 520, left 100, width 100 in a 1024×600 window, with a 280×160 popover preferring the bottom, flips to the top at top 328. Centring gives left 100 + 50 − 140 = 10, already on the margin (`FlipAboveNearBottomEdge`).
- **Phrase translations.** The response interface declares a phrase translation's `tr` as an array (`components/WordDetail.tsx:15`). The view reads it as an object, through `.tr?.l?.i` (`components/WordDetail.tsx:222`). The model admits both forms, and only the object form yields a translation (`PhraseRowOf`).

## Model

| member | source | states |
|---|---|---|
| `Placement.NaivePos` | components/WordBubble.tsx:93-101 | side top puts the popover's bottom edge 12 above the anchor's top; side bottom puts its top 12 below the anchor's bottom; both centre it horizontally on the anchor. Sides left and right place it 12 outside the anchor's left or right edge and centre it vertically. An unrecognised side starts at (0, 0) |
| `Placement.FlipSide` | components/WordBubble.tsx:106-114 | preferred bottom becomes top iff the naive bottom placement crosses the lower margin and the top placement's top lies strictly below the upper margin. Preferred top becomes bottom iff the naive top placement is above the upper margin and the bottom placement ends strictly above the lower margin. Otherwise the preferred side is kept; left, right and unrecognised sides are never changed |
| `Placement.ClampAxis` | components/WordBubble.tsx:116-119 | a popover that fits ends inside the margins; a coordinate already inside the margins is unchanged; one before the near margin moves to it and one past the far limit moves to the far limit. An oversized popover is put at the far limit (the second clamp wins) |
| `Placement.Resolve` | components/WordBubble.tsx:103-119 | the side used is the flip decision. If the popover fits, `10 <= left <= vw-w-10` and `10 <= top <= vh-h-10`; if it is oversized, `left = vw-w-10` and `top = vh-h-10`. A naive position that is already in bounds on an axis is returned unchanged on that axis |
| `Placement.Place` | components/WordBubble.tsx:91-122 | the step-by-step reassignment of position and side through the naive placement, the flip and the four clamps yields exactly `Resolve` |
| `Placement.FlipAboveNearBottomEdge` | components/WordBubble.tsx:95-119 | a worked case: a word near the bottom of a 1024×600 window flips the popover above it, to top 328, left 10 |
| `WordBubble.Repeat` | components/WordBubble.tsx:58-60 | a burst of n requests has length n and every element is the same request |
| `WordBubble.AutoPlayRequests` | components/WordBubble.tsx:57-61 | the auto-play loop issues exactly `autoPronounceCount` word pronunciations of the entry's text with the configured accent and speed, in order, and none for a count that is not positive |
| `WordBubble.Bubble.constructor` | components/WordBubble.tsx:30-64 | on mount there is no position and the side is top; `isAdded` follows the entry's category. A hidden popover issues one stop. A visible one with an entry and a positive count auto-plays once and marks auto-play done |
| `WordBubble.Bubble.AutoPlayCheck` | components/WordBubble.tsx:54-64 | auto-play runs only when visible, with an entry, with a positive count and not yet done. It then appends the whole burst and marks auto-play done; otherwise nothing changes |
| `WordBubble.Bubble.EntryChanged` | components/WordBubble.tsx:36-44 | a non-null entry sets `isAdded` iff its category is learning or known; a null entry leaves it. The auto-play flag is cleared iff the id changed. The auto-play effect then runs |
| `WordBubble.Bubble.VisibilityChanged` | components/WordBubble.tsx:46-64 | hiding appends two stops and clears the auto-play flag. Showing appends one stop, then the burst when there is an entry and a positive count. An unchanged visibility changes nothing. The invariant `Valid` is preserved |
| `WordBubble.Bubble.ConfigChanged` | components/WordBubble.tsx:54-64 | new settings are stored; the auto-play effect runs only when the count, the accent or the speed changed |
| `WordBubble.Bubble.ApplyProps` | components/WordBubble.tsx:36-52 | a render up to the auto-play effect: the cleanup stop on a visibility change, the new props, `isAdded` from a new present entry, and the flag cleared on an id change or on hiding, with one more stop on hiding |
| `WordBubble.Bubble.Rerender` | components/WordBubble.tsx:36-64 | one render with any combination of new props. The stops come first, one on showing and two on hiding. The auto-play effect then runs once, with all the new props, when a new entry object arrived or the visibility, count, accent or speed changed. `Valid` is preserved |
| `WordBubble.Bubble.Unmount` | components/WordBubble.tsx:51 | unmounting appends a stop |
| `WordBubble.Bubble.HandleAdd` | components/WordBubble.tsx:66-72 | with an entry, its id is reported (on every click) and `isAdded` becomes true; with no entry nothing changes |
| `WordBubble.Bubble.PlayAudio` | components/WordBubble.tsx:74-78 | with an entry, one pronunciation of its text with the configured accent and speed is requested; with none, nothing |
| `WordBubble.Bubble.PlaySentenceAudio` | components/WordBubble.tsx:80-82 | one sentence reading with the configured accent and speed is requested |
| `WordBubble.Bubble.Reposition` | components/WordBubble.tsx:85-124 | while rendered (visible, with an entry) and given an anchor, the position and the placed side become the resolved placement; otherwise both are unchanged |
| `WordBubble.Bubble.Render` | components/WordBubble.tsx:126-167 | nothing is rendered iff there is no entry or the popover is hidden. Without a position it sits at -9999 with opacity 0; with one, at that position with opacity 1. The phonetic is shown iff enabled and the US or UK spelling is non-empty, and then the US spelling is preferred. The translation is shown iff enabled, as the entry's translation or "". The original text falls back to "..." when empty. The example is shown iff enabled and non-empty, as the entry's example |
| `WordBubble.HideAndReshow` | components/WordBubble.tsx:46-64 | showing a word, hiding it and showing it again auto-plays it twice, with three stops in between (in the log's order; see Left out) |
| `WordBubble.ShowOnNewWord` | components/WordBubble.tsx:36-64 | a popover hidden on one word and shown on another in one render issues the mount stop, the cleanup stop and the new word's burst only |
| `WordBubble.ReplayOnlyOnNewId` | components/WordBubble.tsx:36-64 | a new entry object with the same id does not replay; one with a different id does |
| `WordBubble.AddTwice` | components/WordBubble.tsx:66-72 | two add clicks report the id twice and leave the word added |
| `FloatingBall.Decimal` | components/page-widget/FloatingBall.tsx:81 | a count renders as a non-empty string of decimal digits, beginning with 0 iff the count is 0, so no multi-digit text has a leading zero |
| `FloatingBall.ParseDecimalInverse` | components/page-widget/FloatingBall.tsx:81 | the rendered digits read back as the count |
| `FloatingBall.DecimalShort` | components/page-widget/FloatingBall.tsx:81 | a count below 100 renders in at most two digits |
| `FloatingBall.BadgeLabel` | components/page-widget/FloatingBall.tsx:81 | the badge reads "99+" above 99 and otherwise the count's canonical decimal text (`Decimal`), which reads back as the count and has at most two digits; it is one to three characters long |
| `FloatingBall.Render` | components/page-widget/FloatingBall.tsx:16-85 | the ball sits exactly at (config.x, config.y). The icon is the book iff the badge count is positive, else the bolt. The badge is shown iff the count is positive, with `BadgeLabel` |
| `FloatingBall.ForwardClick` | components/page-widget/FloatingBall.tsx:24-26 | a click reaches the caller's handler, once and unchanged, iff the ball is not being dragged |
| `WordDetail.SelectView` | components/WordDetail.tsx:46-63 | loading shows the loading view. Otherwise an error or missing data shows the failure view, with the error text or the not-found text. Only data without an error shows the page |
| `WordDetail.Headword` | components/WordDetail.tsx:66 | the headword is `meta.input` when present and non-empty, else the queried word |
| `WordDetail.Tags` | components/WordDetail.tsx:75 | missing `ec` or `exam_type` gives no tags; otherwise the tags as given |
| `WordDetail.KeepTruthy` | components/WordDetail.tsx:74 | `filter(Boolean)` keeps exactly the present, non-empty strings and never lengthens the list |
| `WordDetail.KeepTruthyAppend` | components/WordDetail.tsx:74 | filtering distributes over concatenation, so the kept definitions keep their original order |
| `WordDetail.KeepTruthyAll` | components/WordDetail.tsx:74 | when every candidate is present and non-empty, all are kept, position for position |
| `WordDetail.KeepTruthyNone` | components/WordDetail.tsx:74 | when no candidate is present and non-empty, none is kept |
| `WordDetail.BasicDefs` | components/WordDetail.tsx:69-74 | the definitions are the kept first glosses of the first dictionary word's groups; the list is empty when the word or its groups are missing |
| `WordDetail.BasicDefsAppend` | components/WordDetail.tsx:74 | the definitions of a word whose groups are `a` then `b` are those of `a` followed by those of `b` |
| `WordDetail.CollinsEntries` | components/WordDetail.tsx:78 | a missing Collins book, entries object or entry list gives no entries; otherwise the list as given |
| `WordDetail.Star` | components/WordDetail.tsx:79 | a missing Collins book or star gives 0; otherwise the star value |
| `WordDetail.Etymology` | components/WordDetail.tsx:91 | the etymology is the non-empty Chinese description when present, else "" |
| `WordDetail.Extract` | components/WordDetail.tsx:66-94 | each field is its per-field reading of the response: headword, tags, definitions, Collins entries, star and etymology as above. The pronunciations are the first dictionary word's, none without one. The phrase, synonym, cognate and sentence lists are the response's lists, empty when the section or its list is missing |
| `WordDetail.StarRow` | components/WordDetail.tsx:144-148 | the star row appears iff the star value is positive and then has five icons; icon `i` is filled iff `i` is below the star value |
| `WordDetail.StarRowShape` | components/WordDetail.tsx:144-148 | the filled icons come first, and a whole star value fills exactly that many icons |
| `WordDetail.CollinsRowAt` | components/WordDetail.tsx:174-200 | an entry with no translation entry contributes nothing. Otherwise its part of speech is the entry's non-empty `pos`, and "" exactly when that is missing or empty. The definition is the entry's `tran`; the examples are the entry's example sentences, none when missing. A divider follows iff it is not the last entry |
| `WordDetail.PresentRows` | components/WordDetail.tsx:174-176 | dropping the empty rows keeps exactly the rendered rows |
| `WordDetail.PresentRowsAppend` | components/WordDetail.tsx:174-176 | dropping the empty rows distributes over concatenation, so the rows keep their entries' order |
| `WordDetail.CollinsRows` | components/WordDetail.tsx:174-203 | a row appears for every entry with a translation entry, and every row comes from such an entry |
| `WordDetail.PhraseRowOf` | components/WordDetail.tsx:221-222 | a missing phrase shows nothing. A translation is shown only when the first translation's `tr` is an object, and then it is that object's `l.i`; an array-valued `tr` (the declared shape) shows none |
| `WordDetail.PhraseRows` | components/WordDetail.tsx:219-224 | at most 8 phrases are shown, the first ones of the list, each with its headword and first translation |
| `WordDetail.SynonymRows` | components/WordDetail.tsx:239-248 | at most 3 synonym groups are shown, the first ones of the list |
| `WordDetail.SentenceRows` | components/WordDetail.tsx:300-310 | at most 5 bilingual sentences are shown, the first ones of the list; a missing sentence shows as "" |
| `WordDetail.Pronunciation` | components/WordDetail.tsx:127-140 | a UK or US pronunciation appears iff its spelling is non-empty |
| `WordDetail.Layout` | components/WordDetail.tsx:96-317 | the page shows the headword, tags, definitions and star row. The Collins, phrase, synonym, cognate and sentence sections appear iff their lists are non-empty, and then hold exactly `CollinsRows`, `PhraseRows`, `SynonymRows`, all cognate groups in order, and `SentenceRows`; the etymology appears iff non-empty, as the extracted text |
| `Js.Take` | components/WordDetail.tsx:219 | `slice(0, n)` returns the first `min(n, length)` elements as a prefix |

## Left out
- The dictionary fetch and its loading and error bookkeeping (`components/WordDetail.tsx:28-44`) are network I/O. `SelectView` takes `loading`, `error` and `data` as parameters.
- The audio service (`utils/audio`: `playWordAudio`, `playSentenceAudio`, `playUrl`, `stopAudio`) is not part of this model. How the audio service handles overlapping calls is therefore not modelled. Each call is an entry in the `audio` log.
- The auto-play loop's asynchrony is not modelled. Each iteration awaits the previous playback, and the loop is fire-and-forget. The model records only the ordered requests it issues.
- React's effect scheduling, refs and DOM measurement (`getBoundingClientRect`, `window.innerWidth`) are outside the model. Measurements are parameters of `Reposition`, and the host calls it after renders in which its dependencies changed. The measured element exists exactly while the popover renders (entry present and visible), and that is the condition `Reposition` uses.
- IEEE-754 double arithmetic (rounding, NaN, infinities) is outside the model: coordinates, speeds and the star value are exact reals. `autoPronounceCount` and `badgeCount` are integers; a fractional count is not modelled.
- The drag handler, the movement threshold, clamping the ball into the window, and position persistence are not part of this model. `components/page-widget/FloatingBall.tsx` receives only `isDragging`, `onMouseDown` and `config.x`/`config.y`; `onMouseDown` is passed through unchanged.
- The mouse-enter and mouse-leave callbacks are passed through unchanged (`components/WordBubble.tsx:147`) and are not modelled. So is `stopPropagation` in the handlers.
- All inline styles and CSS classes are left out. That includes the arrow styling for the placed side (`components/WordBubble.tsx:130-135`), the ball's drag scaling (`components/page-widget/FloatingBall.tsx:29`) and the add button's icon and title. Also left out: the HTML content set through `dangerouslySetInnerHTML`, the icons themselves, and everything in `components/Logo.tsx` (branding graphics).
- The detail view's click-to-play handlers are left out. These are `playWordAudio` for the UK/US pronunciations and `playUrl` for a sentence, and they are direct audio calls. `SentenceRow.audio` records the URL a sentence would play.
- `WordBubble.Bubble.PlaySentenceAudio`: the voice argument, which the code passes as `undefined`, is not recorded.
- Array elements in the response are taken to be objects of the declared shape, except that a phrase translation's `tr` may also be an object. A `null` or mistyped element makes the view throw (`components/WordDetail.tsx:74, 175, 194, 221, 241, 244, 262, 266, 301`), and that failure is not modelled.
- The English-English section (`ee`) of the response is never read by the view and is not modelled.
- The word-category enumeration comes from a types module that is not part of this model. Only "new", "learning" and "known" are distinguished.
- `WordBubble.Bubble.AutoPlayCheck`: the whole burst is logged at once, but the code issues only the first play at once (`components/WordBubble.tsx:58-60`). Each later play waits for the previous one, and a stop does not cancel the loop. So with a count above 1, later plays can come after stops and other requests that the log places after the burst.
- `WordBubble.HideAndReshow`: the exact interleaving it states is the log's order; the code guarantees it only for a count of 1, for the reason above.
- `WordBubble.Bubble.constructor`: `ttsSpeed` is always a parameter. A host that omits it is modelled by passing 1.0, the prop's default (`components/WordBubble.tsx:28`).

=== FILE: floating_ball.dfy ===
/**
 * The floating trigger ball: its position, the icon, the unread badge and
 * the click that is forwarded only when the ball is not being dragged.
 */
module FloatingBall {
  import opened Wrappers

  /** The persisted widget settings the ball reads: its screen position. */
  datatype WidgetConfig = WidgetConfig(x: real, y: real)

  datatype Icon = BookOpen | Zap

  /** What the ball renders. `badge` is the badge text, `None` when there is
      no badge. */
  datatype BallView = BallView(left: real, top: real, icon: Icon, badge: Option<string>)

  /** Label shown once the count has three or more digits. */
  const Overflow: string := "99+"

  function DigitChar(d: nat): char
    requires d < 10
  {
    "0123456789"[d]
  }

  function DigitValue(c: char): nat {
    if '0' <= c <= '9' then (c as int - '0' as int) as nat else 0
  }

  /** The decimal text of a count, as a number is rendered into the page:
      digits only, with a leading zero only for zero itself. */
  function Decimal(n: nat): (s: string)
    ensures |s| >= 1
    ensures forall k :: 0 <= k < |s| ==> '0' <= s[k] <= '9'
    ensures s[0] == '0' <==> n == 0
    ensures |s| > 1 ==> s[0] != '0'
  {
    if n < 10 then [DigitChar(n)] else Decimal(n / 10) + [DigitChar(n % 10)]
  }

  /** Reads decimal text back as a number. */
  function ParseDecimal(s: string): nat {
    if s == [] then 0 else ParseDecimal(s[..|s| - 1]) * 10 + DigitValue(s[|s| - 1])
  }

  /** The decimal text denotes the count it was made from. */
  lemma {:induction false} ParseDecimalInverse(n: nat)
    ensures ParseDecimal(Decimal(n)) == n
  {
    var s := Decimal(n);
    if n < 10 {
      assert s[..|s| - 1] == [];
    } else {
      assert s[..|s| - 1] == Decimal(n / 10);
      ParseDecimalInverse(n / 10);
    }
  }

  /** Decimal text has at most two digits below 100. */
  lemma DecimalShort(n: nat)
    requires n < 100
    ensures |Decimal(n)| <= 2
  {
  }

  /** The badge text for a positive count: the count itself up to 99, then
      a capped label, so it never exceeds three characters. */
  function BadgeLabel(count: int): (s: string)
    requires count > 0
    ensures count > 99 ==> s == Overflow
    ensures count <= 99 ==> s == Decimal(count) && ParseDecimal(s) == count && |s| <= 2
    ensures 1 <= |s| <= 3
  {
    if count > 99 then Overflow
    else
      ParseDecimalInverse(count);
      DecimalShort(count);
      Decimal(count)
  }

  /** The ball as rendered: at the configured position, a book icon and a
      badge exactly when there is something to count, a bolt otherwise. */
  function Render(config: WidgetConfig, badgeCount: int): (v: BallView)
    ensures v.left == config.x && v.top == config.y
    ensures v.icon == BookOpen <==> badgeCount > 0
    ensures v.badge.Some? <==> badgeCount > 0
    ensures v.badge.Some? ==> v.badge.value == BadgeLabel(badgeCount)
  {
    BallView(config.x, config.y,
             if badgeCount > 0 then BookOpen else Zap,
             if badgeCount > 0 then Some(BadgeLabel(badgeCount)) else None)
  }

  /** The clicks passed on to the caller's handler for one click on the ball:
      the event itself when not dragging, nothing during a drag. */
  function ForwardClick<E>(isDragging: bool, event: E): (calls: seq<E>)
    ensures |calls| <= 1
    ensures calls != [] <==> !isDragging
    ensures forall c :: c in calls ==> c == event
  {
    if isDragging then [] else [event]
  }
}

=== FILE: js.dfy ===
/**
 * The JavaScript truthiness rules the views rely on. An absent value is
 * `None`; the empty string is falsy; an array, even an empty one, is truthy.
 */
module Js {
  import opened Wrappers

  /** An optional string is truthy when present and non-empty. */
  predicate Truthy(s: Option<string>) {
    s.Some? && s.value != ""
  }

  /** `a || fallback` where `fallback` is a string. */
  function OrElse(a: Option<string>, fallback: string): string {
    if Truthy(a) then a.value else fallback
  }

  /** `a || b` where both sides may be absent. */
  function OrOpt(a: Option<string>, b: Option<string>): Option<string> {
    if Truthy(a) then a else b
  }

  /** `a || []` on an optional array: a present array is kept even when empty. */
  function OrEmpty<T>(a: Option<seq<T>>): seq<T> {
    if a.Some? then a.value else []
  }

  /** `a?.[0]`: the first element of an optional array, absent if there is none. */
  function First<T>(a: Option<seq<T>>): Option<T> {
    if a.Some? && |a.value| > 0 then Some(a.value[0]) else None
  }

  /** `xs.slice(0, n)`: the first `n` elements, or all of them when there are fewer. */
  function Take<T>(xs: seq<T>, n: nat): (r: seq<T>)
    ensures |r| == if |xs| < n then |xs| else n
    ensures r == xs[..|r|]
  {
    if |xs| <= n then xs else xs[..n]
  }
}

=== FILE: placement.dfy ===
/**
 * Placement of the word popover next to its anchor (the hovered word).
 *
 * Coordinates are viewport coordinates, as `getBoundingClientRect` reports
 * them; exact reals stand in for the browser's doubles. The popover is first
 * placed naively on the preferred side, then possibly flipped between top and
 * bottom, then clamped into a fixed margin of the viewport.
 */
module Placement {

  /** The anchor's bounding rectangle. The fields are taken as reported; no
      relation between them (such as `right == left + width`) is assumed. */
  datatype Rect = Rect(top: real, left: real, right: real, bottom: real, width: real, height: real)

  /** The measured size of the popover. */
  datatype Size = Size(width: real, height: real)

  /** The size of the browser window. */
  datatype Viewport = Viewport(width: real, height: real)

  /** The configured side; any other configured string falls to `Unrecognised`. */
  datatype Side = Top | Bottom | Left | Right | Unrecognised(name: string)

  datatype Point = Point(top: real, left: real)

  /** The final position and the side actually used. */
  datatype Placed = Placed(top: real, left: real, side: Side)

  /** Distance between the anchor and the popover edge. */
  const Gap: real := 12.0

  /** Inset kept free on every side of the viewport. */
  const Margin: real := 10.0

  /** The naive position for a side: `Gap` outside the anchor's edge on that
      side, centred on the anchor along the other axis. An unrecognised side
      starts at the viewport origin. */
  function NaivePos(s: Side, anchor: Rect, bubble: Size): (p: Point)
    ensures s == Top ==> p.top + bubble.height + Gap == anchor.top
    ensures s == Bottom ==> p.top == anchor.bottom + Gap
    ensures s == Top || s == Bottom ==>
              p.left + bubble.width / 2.0 == anchor.left + anchor.width / 2.0
    ensures s == Left ==> p.left + bubble.width + Gap == anchor.left
    ensures s == Right ==> p.left == anchor.right + Gap
    ensures s == Left || s == Right ==>
              p.top + bubble.height / 2.0 == anchor.top + anchor.height / 2.0
    ensures s.Unrecognised? ==> p == Point(0.0, 0.0)
  {
    match s
    case Top =>
      Point(anchor.top - bubble.height - Gap, anchor.left + anchor.width / 2.0 - bubble.width / 2.0)
    case Bottom =>
      Point(anchor.bottom + Gap, anchor.left + anchor.width / 2.0 - bubble.width / 2.0)
    case Left =>
      Point(anchor.top + anchor.height / 2.0 - bubble.height / 2.0, anchor.left - bubble.width - Gap)
    case Right =>
      Point(anchor.top + anchor.height / 2.0 - bubble.height / 2.0, anchor.right + Gap)
    case Unrecognised(_) =>
      Point(0.0, 0.0)
  }

  /** The side actually used. Only `Bottom` and `Top` ever flip, and only to
      each other: a preferred side flips exactly when its naive placement
      crosses the margin and the opposite placement stays strictly inside it.
      Otherwise the preferred side is kept and the clamp does the rest. */
  function FlipSide(preferred: Side, anchor: Rect, bubble: Size, viewportHeight: real): (s: Side)
    ensures preferred == Bottom ==>
              (s == Top <==>
                 NaivePos(Bottom, anchor, bubble).top + bubble.height > viewportHeight - Margin
                 && NaivePos(Top, anchor, bubble).top > Margin)
    ensures preferred == Bottom && s != Top ==> s == Bottom
    ensures preferred == Top ==>
              (s == Bottom <==>
                 NaivePos(Top, anchor, bubble).top < Margin
                 && NaivePos(Bottom, anchor, bubble).top + bubble.height < viewportHeight - Margin)
    ensures preferred == Top && s != Bottom ==> s == Top
    ensures preferred != Top && preferred != Bottom ==> s == preferred
  {
    match preferred
    case Bottom =>
      if NaivePos(Bottom, anchor, bubble).top + bubble.height > viewportHeight - Margin
         && anchor.top - Gap - Margin > bubble.height
      then Top else Bottom
    case Top =>
      if NaivePos(Top, anchor, bubble).top < Margin
         && viewportHeight - (anchor.bottom + Gap) - Margin > bubble.height
      then Bottom else Top
    case _ => preferred
  }

  /** Clamps one coordinate of a popover of length `size` into a viewport of
      length `extent`: first up to the near margin, then down to the far one,
      so the far margin wins when the popover does not fit. */
  function ClampAxis(x: real, size: real, extent: real): (r: real)
    ensures size <= extent - 2.0 * Margin ==> Margin <= r <= extent - size - Margin
    ensures size > extent - 2.0 * Margin ==> r == extent - size - Margin
    ensures Margin <= x <= extent - size - Margin ==> r == x
    ensures size <= extent - 2.0 * Margin && x < Margin ==> r == Margin
    ensures x > extent - size - Margin ==> r == extent - size - Margin
  {
    var low := if x < Margin then Margin else x;
    if low + size > extent - Margin then extent - size - Margin else low
  }

  /** The resolved placement: the flipped side's naive position, clamped on
      both axes. */
  function Resolve(anchor: Rect, bubble: Size, preferred: Side, viewport: Viewport): (r: Placed)
    ensures r.side == FlipSide(preferred, anchor, bubble, viewport.height)
    ensures bubble.width <= viewport.width - 2.0 * Margin ==>
              Margin <= r.left <= viewport.width - bubble.width - Margin
    ensures bubble.height <= viewport.height - 2.0 * Margin ==>
              Margin <= r.top <= viewport.height - bubble.height - Margin
    ensures bubble.width > viewport.width - 2.0 * Margin ==>
              r.left == viewport.width - bubble.width - Margin
    ensures bubble.height > viewport.height - 2.0 * Margin ==>
              r.top == viewport.height - bubble.height - Margin
    ensures var p := NaivePos(r.side, anchor, bubble);
            Margin <= p.left <= viewport.width - bubble.width - Margin ==> r.left == p.left
    ensures var p := NaivePos(r.side, anchor, bubble);
            Margin <= p.top <= viewport.height - bubble.height - Margin ==> r.top == p.top
  {
    var side := FlipSide(preferred, anchor, bubble, viewport.height);
    var p := NaivePos(side, anchor, bubble);
    Placed(ClampAxis(p.top, bubble.height, viewport.height),
           ClampAxis(p.left, bubble.width, viewport.width),
           side)
  }

  /** The placement step as the popover runs it: the position and side are
      reassigned in turn by the naive placement, the flip and the four clamps. */
  method Place(anchor: Rect, bubble: Size, preferred: Side, viewport: Viewport) returns (r: Placed)
    ensures r == Resolve(anchor, bubble, preferred, viewport)
  {
    var side := preferred;
    var p := NaivePos(side, anchor, bubble);
    var finalTop, finalLeft := p.top, p.left;

    if side == Bottom {
      if finalTop + bubble.height > viewport.height - Margin {
        if anchor.top - Gap - Margin > bubble.height {
          side := Top;
          p := NaivePos(Top, anchor, bubble);
          finalTop, finalLeft := p.top, p.left;
        }
      }
    } else if side == Top {
      if finalTop < Margin {
        if viewport.height - (anchor.bottom + Gap) - Margin > bubble.height {
          side := Bottom;
          p := NaivePos(Bottom, anchor, bubble);
          finalTop, finalLeft := p.top, p.left;
        }
      }
    }

    if finalLeft < Margin { finalLeft := Margin; }
    if finalLeft + bubble.width > viewport.width - Margin { finalLeft := viewport.width - bubble.width - Margin; }
    if finalTop < Margin { finalTop := Margin; }
    if finalTop + bubble.height > viewport.height - Margin { finalTop := viewport.height - bubble.height - Margin; }

    r := Placed(finalTop, finalLeft, side);
  }

  /** A word near the bottom of a 1024x600 window with a 280x160 popover
      preferring the bottom: the bottom placement would end at 692, past
      590, so the popover flips above the word to top 328; centring gives
      left 10, which is already on the margin. */
  lemma FlipAboveNearBottomEdge()
    ensures Resolve(Rect(500.0, 100.0, 200.0, 520.0, 100.0, 20.0), Size(280.0, 160.0),
                    Bottom, Viewport(1024.0, 600.0))
            == Placed(328.0, 10.0, Top)
  {
  }
}

=== FILE: word_bubble.dfy ===
/**
 * The word popover: its controller state, the effects and handlers that
 * update it, and the render gate.
 *
 * React effects become event methods. Each one runs, in declaration order,
 * the effects whose dependencies the event changes. Calls into the audio
 * service are appended to a request log. Calls to the add-word callback are
 * appended to a log of ids.
 */
module WordBubble {
  import opened Wrappers
  import opened Js
  import opened Placement

  datatype WordCategory = NewWord | LearningWord | KnownWord

  /** The word record supplied by the dictionary collaborator. */
  datatype WordEntry = WordEntry(
    id: string,
    text: string,
    category: WordCategory,
    phoneticUs: Option<string>,
    phoneticUk: Option<string>,
    translation: Option<string>,
    dictionaryExample: Option<string>)

  datatype Accent = US | UK

  /** The interaction settings the popover reads. */
  datatype Config = Config(
    bubblePosition: Side,
    autoPronounceCount: int,
    autoPronounceAccent: Accent,
    showPhonetic: bool,
    showDictTranslation: bool,
    showOriginalText: bool,
    showDictExample: bool)

  /** One call into the audio service. */
  datatype AudioRequest =
    | PlayWord(text: string, accent: Accent, speed: real)
    | PlaySentence(text: string, accent: Accent, speed: real)
    | Stop

  /** `entry?.id`. */
  function IdOf(entry: Option<WordEntry>): Option<string> {
    if entry.Some? then Some(entry.value.id) else None
  }

  /** A word the user already learns or knows counts as added. */
  predicate AddedCategory(c: WordCategory) {
    c == LearningWord || c == KnownWord
  }

  /** `n` copies of one request, in order. */
  function Repeat(r: AudioRequest, n: nat): (s: seq<AudioRequest>)
    ensures |s| == n
    ensures forall i :: 0 <= i < n ==> s[i] == r
  {
    if n == 0 then [] else Repeat(r, n - 1) + [r]
  }

  /** The requests of the auto-play loop: it awaits one word pronunciation
      per iteration, `count` times (none when `count` is not positive). */
  method AutoPlayRequests(text: string, accent: Accent, speed: real, count: int)
    returns (reqs: seq<AudioRequest>)
    ensures reqs == Repeat(PlayWord(text, accent, speed), if count > 0 then count else 0)
  {
    reqs := [];
    var i := 0;
    while i < count
      invariant 0 <= i
      invariant count > 0 ==> i <= count
      invariant count <= 0 ==> i == 0
      invariant reqs == Repeat(PlayWord(text, accent, speed), i)
      decreases count - i
    {
      reqs := reqs + [PlayWord(text, accent, speed)];
      i := i + 1;
    }
  }

  /** The stop requests a visibility change issues: the previous effect's
      cleanup, and on hiding the effect's own stop. */
  function VisibilityStops(was: bool, now: bool): (stops: seq<AudioRequest>)
    ensures |stops| == (if was == now then 0 else if now then 1 else 2)
    ensures forall k :: 0 <= k < |stops| ==> stops[k] == Stop
  {
    if was == now then [] else if now then [Stop] else [Stop, Stop]
  }

  /** The auto-play flag after the id-reset and visibility effects: cleared
      when the id changed or the popover was hidden, otherwise kept. */
  function FlagAfter(flag: bool, idChanged: bool, was: bool, now: bool): (r: bool)
    ensures r <==> flag && !idChanged && !(was && !now)
  {
    if idChanged || (was != now && !now) then false else flag
  }

  /** Whether a render reruns the auto-play effect: a new entry object, a
      visibility change, or a change of the count, the accent or the speed. */
  predicate AutoPlayRerun(newEntry: bool, was: bool, now: bool, oldConfig: Config, newConfig: Config,
                          oldSpeed: real, newSpeed: real)
  {
    newEntry || was != now
    || newConfig.autoPronounceCount != oldConfig.autoPronounceCount
    || newConfig.autoPronounceAccent != oldConfig.autoPronounceAccent
    || newSpeed != oldSpeed
  }

  /** What the popover renders. `None` fields are sections not rendered. */
  datatype BubbleView = BubbleView(
    top: real,
    left: real,
    opacity: real,
    word: string,
    phonetic: Option<string>,
    added: bool,
    translation: Option<string>,
    originalText: Option<string>,
    example: Option<string>)

  /** Where the popover sits while it has not yet been measured and placed. */
  const Offscreen: real := -9999.0

  class Bubble {
    // Props supplied by the host page.
    var entry: Option<WordEntry>
    var visible: bool
    var config: Config
    var ttsSpeed: real

    // Component state.
    var position: Option<Point>
    var placedSide: Side
    var isAdded: bool
    var hasAutoPlayed: bool

    // Calls made to collaborators, oldest first.
    var audio: seq<AudioRequest>
    var addRequests: seq<string>

    /** Auto-play is only ever marked done for a visible popover with an
        entry, and the side is still the initial one until a position has
        been computed. */
    ghost predicate Valid()
      reads this
    {
      && (hasAutoPlayed ==> visible && entry.Some?)
      && (position.None? ==> placedSide == Top)
    }

    /** The auto-play effect's guard. */
    predicate AutoPlayDue()
      reads this
    {
      visible && entry.Some? && config.autoPronounceCount > 0 && !hasAutoPlayed
    }

    /** The requests one auto-play run issues for the current entry. */
    function AutoPlayBurst(): seq<AudioRequest>
      reads this
      requires entry.Some? && config.autoPronounceCount > 0
    {
      Repeat(PlayWord(entry.value.text, config.autoPronounceAccent, ttsSpeed),
             config.autoPronounceCount)
    }

    /** Mounting: initial state, then the four effects in order. The
        visibility effect has no earlier cleanup to run. */
    constructor (entry: Option<WordEntry>, visible: bool, config: Config, ttsSpeed: real)
      ensures Valid()
      ensures this.entry == entry && this.visible == visible
      ensures this.config == config && this.ttsSpeed == ttsSpeed
      ensures position == None && placedSide == Top
      ensures isAdded == (entry.Some? && AddedCategory(entry.value.category))
      ensures hasAutoPlayed == (visible && entry.Some? && config.autoPronounceCount > 0)
      ensures audio ==
                if !visible then [Stop]
                else if entry.Some? && config.autoPronounceCount > 0 then AutoPlayBurst()
                else []
      ensures addRequests == []
    {
      this.entry, this.visible, this.config, this.ttsSpeed := entry, visible, config, ttsSpeed;
      position, placedSide := None, Top;
      isAdded := entry.Some? && AddedCategory(entry.value.category);
      hasAutoPlayed := false;
      audio, addRequests := [], [];
      if !visible {
        audio := audio + [Stop];
      }
      new;
      AutoPlayCheck();
    }

    /** The auto-play effect: when due, issue the burst and mark it done. */
    method AutoPlayCheck()
      requires Valid()
      modifies this`audio, this`hasAutoPlayed
      ensures Valid()
      ensures old(AutoPlayDue()) ==> audio == old(audio) + AutoPlayBurst() && hasAutoPlayed
      ensures !old(AutoPlayDue()) ==> audio == old(audio) && hasAutoPlayed == old(hasAutoPlayed)
    {
      if AutoPlayDue() {
        var reqs := AutoPlayRequests(entry.value.text, config.autoPronounceAccent, ttsSpeed,
                                     config.autoPronounceCount);
        audio := audio + reqs;
        hasAutoPlayed := true;
      }
    }

    /** A new entry object arrives. A present entry sets `isAdded` from its
        category; an absent one leaves it. The auto-play flag is cleared when
        the id differs. Then the auto-play effect runs. */
    method EntryChanged(e: Option<WordEntry>)
      requires Valid()
      modifies this`entry, this`isAdded, this`hasAutoPlayed, this`audio
      ensures Valid()
      ensures entry == e
      ensures e.Some? ==> isAdded == AddedCategory(e.value.category)
      ensures e.None? ==> isAdded == old(isAdded)
      ensures var flag := if IdOf(e) != IdOf(old(entry)) then false else old(hasAutoPlayed);
              var due := visible && e.Some? && config.autoPronounceCount > 0 && !flag;
              && (due ==> audio == old(audio) + AutoPlayBurst() && hasAutoPlayed)
              && (!due ==> audio == old(audio) && hasAutoPlayed == flag)
    {
      var oldId := IdOf(entry);
      entry := e;
      if e.Some? {
        isAdded := AddedCategory(e.value.category);
      }
      if IdOf(e) != oldId {
        hasAutoPlayed := false;
      }
      AutoPlayCheck();
    }

    /** The visibility prop changes. The previous visibility effect's cleanup
        stops audio; on hiding, the effect stops audio again and clears the
        auto-play flag. Then the auto-play effect runs. An unchanged value
        runs no effect. */
    method VisibilityChanged(v: bool)
      requires Valid()
      modifies this`visible, this`hasAutoPlayed, this`audio
      ensures Valid()
      ensures visible == v
      ensures v == old(visible) ==> audio == old(audio) && hasAutoPlayed == old(hasAutoPlayed)
      ensures v != old(visible) && !v ==> audio == old(audio) + [Stop, Stop] && !hasAutoPlayed
      ensures v != old(visible) && v && entry.Some? && config.autoPronounceCount > 0 ==>
                audio == old(audio) + [Stop] + AutoPlayBurst() && hasAutoPlayed
      ensures v != old(visible) && v && !(entry.Some? && config.autoPronounceCount > 0) ==>
                audio == old(audio) + [Stop] && !hasAutoPlayed
    {
      if v != visible {
        audio := audio + [Stop];
        visible := v;
        if !v {
          audio := audio + [Stop];
          hasAutoPlayed := false;
        }
        AutoPlayCheck();
      }
    }

    /** New settings or speech speed. The auto-play effect runs when the
        count, the accent or the speed changed. */
    method ConfigChanged(c: Config, speed: real)
      requires Valid()
      modifies this`config, this`ttsSpeed, this`hasAutoPlayed, this`audio
      ensures Valid()
      ensures config == c && ttsSpeed == speed
      ensures var rerun := c.autoPronounceCount != old(config).autoPronounceCount
                           || c.autoPronounceAccent != old(config).autoPronounceAccent
                           || speed != old(ttsSpeed);
              var due := rerun && visible && entry.Some? && c.autoPronounceCount > 0 && !old(hasAutoPlayed);
              && (due ==> audio == old(audio) + AutoPlayBurst() && hasAutoPlayed)
              && (!due ==> audio == old(audio) && hasAutoPlayed == old(hasAutoPlayed))
    {
      var rerun := c.autoPronounceCount != config.autoPronounceCount
                   || c.autoPronounceAccent != config.autoPronounceAccent
                   || speed != ttsSpeed;
      config, ttsSpeed := c, speed;
      if rerun {
        AutoPlayCheck();
      }
    }

    /** The part of one render before the auto-play effect: the visibility
        effect's cleanup when visibility changed, the new props, then the
        `isAdded`, id-reset and visibility effects. */
    method ApplyProps(e: Option<Option<WordEntry>>, v: bool, c: Config, speed: real)
      requires Valid()
      modifies this`entry, this`visible, this`config, this`ttsSpeed
      modifies this`isAdded, this`hasAutoPlayed, this`audio
      ensures Valid()
      ensures entry == (if e.Some? then e.value else old(entry))
      ensures visible == v && config == c && ttsSpeed == speed
      ensures isAdded == if e.Some? && e.value.Some? then AddedCategory(e.value.value.category) else old(isAdded)
      ensures audio == old(audio) + VisibilityStops(old(visible), v)
      ensures hasAutoPlayed == FlagAfter(old(hasAutoPlayed), IdOf(old(entry)) != IdOf(entry), old(visible), v)
    {
      var oldId := IdOf(entry);
      var visibilityChanged := v != visible;
      if visibilityChanged {
        audio := audio + [Stop];
      }
      if e.Some? {
        entry := e.value;
      }
      visible, config, ttsSpeed := v, c, speed;
      if e.Some? && e.value.Some? {
        isAdded := AddedCategory(e.value.value.category);
      }
      if IdOf(entry) != oldId {
        hasAutoPlayed := false;
      }
      if visibilityChanged && !v {
        audio := audio + [Stop];
        hasAutoPlayed := false;
      }
    }

    /** One render in which any of the props may change together. `e` is
        `None` when the host passes the same entry object again and
        `Some(x)` for a new entry object `x`. React first runs the cleanup of
        every effect whose dependencies changed (only the visibility effect
        has one, and it stops audio), then the changed effects in declaration
        order, each seeing all the new props: `isAdded`, the id reset, the
        visibility effect and, last, the auto-play effect, once. */
    method Rerender(e: Option<Option<WordEntry>>, v: bool, c: Config, speed: real)
      requires Valid()
      modifies this`entry, this`visible, this`config, this`ttsSpeed
      modifies this`isAdded, this`hasAutoPlayed, this`audio
      ensures Valid()
      ensures entry == (if e.Some? then e.value else old(entry))
      ensures visible == v && config == c && ttsSpeed == speed
      ensures isAdded == if e.Some? && e.value.Some? then AddedCategory(e.value.value.category) else old(isAdded)
      ensures var flag := FlagAfter(old(hasAutoPlayed), IdOf(old(entry)) != IdOf(entry), old(visible), v);
              var stops := VisibilityStops(old(visible), v);
              var due := AutoPlayRerun(e.Some?, old(visible), v, old(config), c, old(ttsSpeed), speed)
                         && v && entry.Some? && c.autoPronounceCount > 0 && !flag;
              && (due ==> audio == old(audio) + stops + AutoPlayBurst() && hasAutoPlayed)
              && (!due ==> audio == old(audio) + stops && hasAutoPlayed == flag)
    {
      var rerun := AutoPlayRerun(e.Some?, visible, v, config, c, ttsSpeed, speed);
      ApplyProps(e, v, c, speed);
      if rerun {
        AutoPlayCheck();
      }
    }

    /** Unmounting runs the visibility effect's cleanup, which stops audio. */
    method Unmount()
      modifies this`audio
      ensures audio == old(audio) + [Stop]
    {
      audio := audio + [Stop];
    }

    /** The add button: with an entry, the add-word callback receives its id
        (on every click) and the popover shows the word as added; without an
        entry nothing happens. */
    method HandleAdd()
      requires Valid()
      modifies this`addRequests, this`isAdded
      ensures Valid()
      ensures entry.Some? ==> addRequests == old(addRequests) + [entry.value.id] && isAdded
      ensures entry.None? ==> addRequests == old(addRequests) && isAdded == old(isAdded)
    {
      if entry.Some? {
        addRequests := addRequests + [entry.value.id];
        isAdded := true;
      }
    }

    /** The speaker button: pronounce the entry's word once. */
    method PlayAudio()
      modifies this`audio
      ensures entry.Some? ==>
                audio == old(audio) + [PlayWord(entry.value.text, config.autoPronounceAccent, ttsSpeed)]
      ensures entry.None? ==> audio == old(audio)
    {
      if entry.Some? {
        audio := audio + [PlayWord(entry.value.text, config.autoPronounceAccent, ttsSpeed)];
      }
    }

    /** Clicking the dictionary example reads the sentence aloud. */
    method PlaySentenceAudio(text: string)
      modifies this`audio
      ensures audio == old(audio) + [PlaySentence(text, config.autoPronounceAccent, ttsSpeed)]
    {
      audio := audio + [PlaySentence(text, config.autoPronounceAccent, ttsSpeed)];
    }

    /** The position effect, given the anchor rectangle, the popover's
        measured size and the window size. The popover element exists to be
        measured only while it is rendered, that is, with an entry and
        visible; without that or without an anchor nothing changes. */
    method Reposition(anchor: Option<Rect>, measured: Size, viewport: Viewport)
      requires Valid()
      modifies this`position, this`placedSide
      ensures Valid()
      ensures visible && entry.Some? && anchor.Some? ==>
                var p := Resolve(anchor.value, measured, config.bubblePosition, viewport);
                position == Some(Point(p.top, p.left)) && placedSide == p.side
      ensures !(visible && entry.Some? && anchor.Some?) ==>
                position == old(position) && placedSide == old(placedSide)
    {
      if visible && anchor.Some? && entry.Some? {
        var p := Place(anchor.value, measured, config.bubblePosition, viewport);
        position := Some(Point(p.top, p.left));
        placedSide := p.side;
      }
    }

    /** The render gate. Nothing is rendered without an entry or while
        hidden. Before a position exists the popover is parked off screen
        and transparent, so it can be measured unseen. */
    function Render(originalText: string): (v: Option<BubbleView>)
      reads this
      ensures v.None? <==> entry.None? || !visible
      ensures v.Some? && position.None? ==>
                v.value.top == Offscreen && v.value.left == Offscreen && v.value.opacity == 0.0
      ensures v.Some? && position.Some? ==>
                v.value.top == position.value.top && v.value.left == position.value.left
                && v.value.opacity == 1.0
      ensures v.Some? ==> v.value.word == entry.value.text && v.value.added == isAdded
      ensures v.Some? ==>
                (v.value.phonetic.Some? <==>
                   config.showPhonetic && (Truthy(entry.value.phoneticUs) || Truthy(entry.value.phoneticUk)))
      ensures v.Some? && v.value.phonetic.Some? ==>
                v.value.phonetic.value == (if Truthy(entry.value.phoneticUs) then entry.value.phoneticUs.value
                                           else entry.value.phoneticUk.value)
      ensures v.Some? ==> (v.value.translation.Some? <==> config.showDictTranslation)
      ensures v.Some? && v.value.translation.Some? ==>
                v.value.translation.value == entry.value.translation.GetOr("")
      ensures v.Some? ==>
                v.value.originalText ==
                  if config.showOriginalText then Some(if originalText != "" then originalText else "...")
                  else None
      ensures v.Some? ==>
                (v.value.example.Some? <==> config.showDictExample && Truthy(entry.value.dictionaryExample))
      ensures v.Some? && v.value.example.Some? ==> v.value.example == entry.value.dictionaryExample
    {
      if entry.None? || !visible then None
      else
        var e := entry.value;
        var phonetic := if config.showPhonetic && (Truthy(e.phoneticUs) || Truthy(e.phoneticUk))
                        then OrOpt(e.phoneticUs, e.phoneticUk) else None;
        Some(BubbleView(
          if position.Some? then position.value.top else Offscreen,
          if position.Some? then position.value.left else Offscreen,
          if position.Some? then 1.0 else 0.0,
          e.text,
          phonetic,
          isAdded,
          if config.showDictTranslation then Some(e.translation.GetOr("")) else None,
          if config.showOriginalText then Some(OrElse(Some(originalText), "...")) else None,
          if config.showDictExample && Truthy(e.dictionaryExample) then e.dictionaryExample else None))
    }
  }

  /** Showing a word, hiding it and showing it again auto-plays it twice:
      hiding clears the auto-play flag. Hiding stops audio twice (the
      cleanup and the effect) and showing once (the cleanup). */
  method HideAndReshow(e: WordEntry, config: Config, speed: real) returns (audio: seq<AudioRequest>)
    requires config.autoPronounceCount > 0
    ensures var burst := Repeat(PlayWord(e.text, config.autoPronounceAccent, speed), config.autoPronounceCount);
            audio == burst + [Stop, Stop] + [Stop] + burst
  {
    var b := new Bubble(Some(e), true, config, speed);
    b.VisibilityChanged(false);
    b.VisibilityChanged(true);
    audio := b.audio;
  }

  /** A new entry object with the same id does not replay; one with another
      id does. */
  method ReplayOnlyOnNewId(e: WordEntry, sameId: WordEntry, otherId: WordEntry, config: Config, speed: real)
    returns (audio: seq<AudioRequest>)
    requires config.autoPronounceCount > 0
    requires sameId.id == e.id && otherId.id != e.id
    ensures audio == Repeat(PlayWord(e.text, config.autoPronounceAccent, speed), config.autoPronounceCount)
                     + Repeat(PlayWord(otherId.text, config.autoPronounceAccent, speed), config.autoPronounceCount)
  {
    var b := new Bubble(Some(e), true, config, speed);
    b.EntryChanged(Some(sameId));
    b.EntryChanged(Some(otherId));
    audio := b.audio;
  }

  /** A popover hidden on one word and shown on another in the same render
      stops audio and plays only the new word: the auto-play effect runs
      once, after the entry and the visibility have both changed. */
  method ShowOnNewWord(a: WordEntry, b: WordEntry, config: Config, speed: real)
    returns (audio: seq<AudioRequest>)
    requires config.autoPronounceCount > 0
    ensures audio == [Stop, Stop] + Repeat(PlayWord(b.text, config.autoPronounceAccent, speed), config.autoPronounceCount)
  {
    var bubble := new Bubble(Some(a), false, config, speed);
    bubble.Rerender(Some(Some(b)), true, config, speed);
    audio := bubble.audio;
  }

  /** Clicking add twice reports the id twice and leaves the word added. */
  method AddTwice(e: WordEntry, visible: bool, config: Config, speed: real)
    returns (added: seq<string>, isAdded: bool)
    ensures added == [e.id, e.id] && isAdded
  {
    var b := new Bubble(Some(e), visible, config, speed);
    b.HandleAdd();
    b.HandleAdd();
    added, isAdded := b.addRequests, b.isAdded;
  }
}

=== FILE: word_detail.dfy ===
/**
 * The detailed dictionary view: which view is shown, how the fields are
 * pulled out of the dictionary service's response with defaults, and how
 * the lists are capped and rendered.
 *
 * Every object field of the response is optional. Missing fields are `None`,
 * and `||` defaults follow JavaScript truthiness (see module Js). Array
 * elements are always objects of the declared shape, except that a phrase
 * translation's `tr` may also be an object (see `TrValue`); a `null`
 * element, on which the view would throw, is not modelled.
 */
module WordDetail {
  import opened Wrappers
  import opened Js

  // ---- The response, as far as the view reads it ----

  datatype Meta = Meta(input: Option<string>)

  /** `{ l?: { i?: string[] } }` inside the basic definitions. */
  datatype GlossList = GlossList(i: Option<seq<string>>)
  datatype TrLine = TrLine(l: Option<GlossList>)
  datatype TrGroup = TrGroup(tr: Option<seq<TrLine>>)
  datatype EcWord = EcWord(usphone: Option<string>, ukphone: Option<string>, trs: Option<seq<TrGroup>>)
  datatype Ec = Ec(word: Option<seq<EcWord>>, examType: Option<seq<string>>)

  datatype ExamSentence = ExamSentence(sentOrig: Option<string>, sentTrans: Option<string>)
  datatype PosEntry = PosEntry(pos: Option<string>, posTips: Option<string>)
  datatype TranEntry = TranEntry(posEntry: Option<PosEntry>, tran: Option<string>, examSents: Option<seq<ExamSentence>>)
  datatype CollinsEntry = CollinsEntry(tranEntry: Option<seq<TranEntry>>)
  datatype CollinsEntryList = CollinsEntryList(entry: Option<seq<CollinsEntry>>)
  datatype CollinsBook = CollinsBook(entries: Option<CollinsEntryList>, star: Option<real>)
  datatype Collins = Collins(collinsEntries: Option<seq<CollinsBook>>)

  /** `{ i?: string }` and `{ l?: { i?: string } }` inside phrases. */
  datatype Gloss = Gloss(i: Option<string>)
  datatype Labelled = Labelled(l: Option<Gloss>)
  /** A phrase translation's `tr`. It is declared as an array of labelled
      glosses, but the view reads it as a single object (`.tr?.l?.i`); an
      array has no `l`, so only the object form yields a translation. */
  datatype TrValue = TrArray(items: seq<Labelled>) | TrObject(obj: Labelled)
  datatype PhraseTr = PhraseTr(tr: Option<TrValue>)
  datatype Phrase = Phrase(headword: Option<Labelled>, trs: Option<seq<PhraseTr>>)
  datatype PhraseItem = PhraseItem(phr: Option<Phrase>)
  datatype Phrases = Phrases(phrs: Option<seq<PhraseItem>>)

  datatype SynoWord = SynoWord(w: Option<string>)
  datatype Syno = Syno(pos: Option<string>, tran: Option<string>, ws: Option<seq<SynoWord>>)
  datatype SynoItem = SynoItem(syno: Option<Syno>)
  datatype Synonyms = Synonyms(synos: Option<seq<SynoItem>>)

  datatype RelWord = RelWord(word: Option<string>, tran: Option<string>)
  datatype Rel = Rel(pos: Option<string>, words: Option<seq<RelWord>>)
  datatype RelItem = RelItem(rel: Option<Rel>)
  datatype RelWords = RelWords(rels: Option<seq<RelItem>>)

  datatype EtymZh = EtymZh(word: Option<string>, desc: Option<string>, source: Option<string>)
  datatype Etyms = Etyms(zh: Option<EtymZh>)
  datatype Etym = Etym(etyms: Option<Etyms>)

  datatype Pair = Pair(sentence: Option<string>, translation: Option<string>, sentenceAudio: Option<string>)
  datatype SentenceItem = SentenceItem(pair: Option<Pair>)
  datatype BilingualSentences = BilingualSentences(sentence: Option<seq<SentenceItem>>)

  datatype Response = Response(
    meta: Option<Meta>,
    ec: Option<Ec>,
    collins: Option<Collins>,
    phrs: Option<Phrases>,
    syno: Option<Synonyms>,
    relWord: Option<RelWords>,
    etym: Option<Etym>,
    blngSentsPart: Option<BilingualSentences>)

  // ---- View selection ----

  /** Shown when there is neither an error message nor data. */
  const NotFoundMessage: string := "未找到该单词的详细数据"

  datatype View = Loading | Failed(message: string) | Detail(page: Page)

  /** Loading wins; then an error or missing data gives the failure view,
      with the error message or the not-found text; otherwise the page. */
  function SelectView(loading: bool, error: Option<string>, data: Option<Response>, word: string): (v: View)
    ensures loading <==> v == Loading
    ensures !loading && (Truthy(error) || data.None?) ==>
              v == Failed(if Truthy(error) then error.value else NotFoundMessage)
    ensures !loading && !Truthy(error) && data.Some? ==> v == Detail(Layout(Extract(data.value, word)))
  {
    if loading then Loading
    else if Truthy(error) || data.None? then Failed(OrElse(error, NotFoundMessage))
    else Detail(Layout(Extract(data.value, word)))
  }

  // ---- Safe extraction ----

  /** The fields the page is built from, after defaults. */
  datatype Extracted = Extracted(
    headword: string,
    usPhone: Option<string>,
    ukPhone: Option<string>,
    basicDefs: seq<string>,
    tags: seq<string>,
    collinsEntries: seq<CollinsEntry>,
    star: real,
    phrases: seq<PhraseItem>,
    synonyms: seq<SynoItem>,
    relWords: seq<RelItem>,
    etym: string,
    sentences: seq<SentenceItem>)

  /** `data.meta?.input || word`: the service's spelling of the word when it
      gives a non-empty one, else the word that was looked up. */
  function Headword(data: Response, word: string): (h: string)
    ensures data.meta.Some? && Truthy(data.meta.value.input) ==> h == data.meta.value.input.value
    ensures !(data.meta.Some? && Truthy(data.meta.value.input)) ==> h == word
    ensures h != "" || word == ""
  {
    OrElse(if data.meta.Some? then data.meta.value.input else None, word)
  }

  /** `data.ec?.word?.[0]`: the first dictionary word. */
  function FirstEcWord(data: Response): Option<EcWord> {
    if data.ec.Some? then First(data.ec.value.word) else None
  }

  /** `data.ec?.exam_type || []`: the exam tags, none when missing. */
  function Tags(data: Response): (t: seq<string>)
    ensures data.ec.None? || data.ec.value.examType.None? ==> t == []
    ensures data.ec.Some? && data.ec.value.examType.Some? ==> t == data.ec.value.examType.value
  {
    if data.ec.Some? then OrEmpty(data.ec.value.examType) else []
  }

  /** `tr.tr?.[0]?.l?.i?.[0]`: the first gloss of one definition group. */
  function FirstGloss(g: TrGroup): Option<string> {
    var line := First(g.tr);
    if line.Some? && line.value.l.Some? then First(line.value.l.value.i) else None
  }

  /** `trs.map(tr => tr.tr?.[0]?.l?.i?.[0])`. */
  function Glosses(groups: seq<TrGroup>): (gs: seq<Option<string>>)
    ensures |gs| == |groups|
    ensures forall k :: 0 <= k < |groups| ==> gs[k] == FirstGloss(groups[k])
  {
    seq(|groups|, k requires 0 <= k < |groups| => FirstGloss(groups[k]))
  }

  /** `.filter(Boolean)` on optional strings: keeps the present, non-empty
      ones, in order. */
  function KeepTruthy(xs: seq<Option<string>>): (r: seq<string>)
    ensures |r| <= |xs|
    ensures forall k :: 0 <= k < |r| ==> r[k] != ""
    ensures forall s :: s in r <==> s != "" && Some(s) in xs
  {
    if xs == [] then []
    else (if Truthy(xs[0]) then [xs[0].value] else []) + KeepTruthy(xs[1..])
  }

  /** Filtering distributes over concatenation, so the kept strings stay in
      their original order. */
  lemma {:induction false} KeepTruthyAppend(a: seq<Option<string>>, b: seq<Option<string>>)
    ensures KeepTruthy(a + b) == KeepTruthy(a) + KeepTruthy(b)
  {
    if a == [] {
      assert a + b == b;
    } else {
      assert (a + b)[1..] == a[1..] + b;
      KeepTruthyAppend(a[1..], b);
    }
  }

  /** When every string is present and non-empty, nothing is dropped. */
  lemma {:induction false} KeepTruthyAll(xs: seq<Option<string>>)
    requires forall k :: 0 <= k < |xs| ==> Truthy(xs[k])
    ensures |KeepTruthy(xs)| == |xs|
    ensures forall k :: 0 <= k < |xs| ==> xs[k] == Some(KeepTruthy(xs)[k])
  {
    if xs != [] {
      KeepTruthyAll(xs[1..]);
    }
  }

  /** When no string is present and non-empty, nothing is kept. */
  lemma {:induction false} KeepTruthyNone(xs: seq<Option<string>>)
    requires forall k :: 0 <= k < |xs| ==> !Truthy(xs[k])
    ensures KeepTruthy(xs) == []
  {
    if xs != [] {
      KeepTruthyNone(xs[1..]);
    }
  }

  /** The basic definitions of the first dictionary word: the first gloss of
      each definition group that has a non-empty one, in order; none when the
      word or its groups are missing. */
  function BasicDefs(ecWord: Option<EcWord>): (r: seq<string>)
    ensures ecWord.None? || ecWord.value.trs.None? ==> r == []
    ensures ecWord.Some? && ecWord.value.trs.Some? ==> r == KeepTruthy(Glosses(ecWord.value.trs.value))
  {
    if ecWord.Some? && ecWord.value.trs.Some? then KeepTruthy(Glosses(ecWord.value.trs.value)) else []
  }

  /** The basic definitions of a word whose groups are `a` then `b` are
      those of `a` followed by those of `b`. */
  lemma BasicDefsAppend(us: Option<string>, uk: Option<string>, a: seq<TrGroup>, b: seq<TrGroup>)
    ensures BasicDefs(Some(EcWord(us, uk, Some(a + b))))
            == BasicDefs(Some(EcWord(us, uk, Some(a)))) + BasicDefs(Some(EcWord(us, uk, Some(b))))
  {
    assert Glosses(a + b) == Glosses(a) + Glosses(b);
    KeepTruthyAppend(Glosses(a), Glosses(b));
  }

  /** `data.collins?.collins_entries?.[0]`: the first Collins book. */
  function FirstCollinsBook(data: Response): Option<CollinsBook> {
    if data.collins.Some? then First(data.collins.value.collinsEntries) else None
  }

  /** `...?.entries?.entry || []`: the Collins entries, none when missing. */
  function CollinsEntries(data: Response): (e: seq<CollinsEntry>)
    ensures var book := FirstCollinsBook(data);
            book.None? || book.value.entries.None? || book.value.entries.value.entry.None? ==> e == []
    ensures var book := FirstCollinsBook(data);
            book.Some? && book.value.entries.Some? && book.value.entries.value.entry.Some? ==>
              e == book.value.entries.value.entry.value
  {
    var book := FirstCollinsBook(data);
    if book.Some? && book.value.entries.Some? then OrEmpty(book.value.entries.value.entry) else []
  }

  /** `...?.star || 0`: the Collins frequency, 0 when missing. */
  function Star(data: Response): (s: real)
    ensures var book := FirstCollinsBook(data);
            book.None? || book.value.star.None? ==> s == 0.0
    ensures var book := FirstCollinsBook(data);
            book.Some? && book.value.star.Some? ==> s == book.value.star.value
  {
    var book := FirstCollinsBook(data);
    // An absent star and a zero star both give 0.
    if book.Some? && book.value.star.Some? then book.value.star.value else 0.0
  }

  /** `data.etym?.etyms?.zh?.desc || ""`: the Chinese etymology text, empty
      when missing. */
  function Etymology(data: Response): (e: string)
    ensures var zh := if data.etym.Some? && data.etym.value.etyms.Some? then data.etym.value.etyms.value.zh else None;
            && (zh.Some? && Truthy(zh.value.desc) ==> e == zh.value.desc.value)
            && (!(zh.Some? && Truthy(zh.value.desc)) ==> e == "")
  {
    var zh := if data.etym.Some? && data.etym.value.etyms.Some? then data.etym.value.etyms.value.zh else None;
    OrElse(if zh.Some? then zh.value.desc else None, "")
  }

  /** Pulls every field out of the response with its default. */
  function Extract(data: Response, word: string): (x: Extracted)
    ensures x.headword == Headword(data, word) && x.tags == Tags(data)
    ensures x.basicDefs == BasicDefs(FirstEcWord(data))
    ensures x.collinsEntries == CollinsEntries(data) && x.star == Star(data)
    ensures x.etym == Etymology(data)
    ensures FirstEcWord(data).Some? ==>
              x.usPhone == FirstEcWord(data).value.usphone && x.ukPhone == FirstEcWord(data).value.ukphone
    ensures data.phrs.Some? ==> x.phrases == OrEmpty(data.phrs.value.phrs)
    ensures data.syno.Some? ==> x.synonyms == OrEmpty(data.syno.value.synos)
    ensures data.relWord.Some? ==> x.relWords == OrEmpty(data.relWord.value.rels)
    ensures data.blngSentsPart.Some? ==> x.sentences == OrEmpty(data.blngSentsPart.value.sentence)
    ensures FirstEcWord(data).None? ==> x.basicDefs == [] && x.usPhone.None? && x.ukPhone.None?
    ensures data.phrs.None? ==> x.phrases == []
    ensures data.syno.None? ==> x.synonyms == []
    ensures data.relWord.None? ==> x.relWords == []
    ensures data.blngSentsPart.None? ==> x.sentences == []
  {
    var ecWord := FirstEcWord(data);
    Extracted(
      Headword(data, word),
      if ecWord.Some? then ecWord.value.usphone else None,
      if ecWord.Some? then ecWord.value.ukphone else None,
      BasicDefs(ecWord),
      Tags(data),
      CollinsEntries(data),
      Star(data),
      if data.phrs.Some? then OrEmpty(data.phrs.value.phrs) else [],
      if data.syno.Some? then OrEmpty(data.syno.value.synos) else [],
      if data.relWord.Some? then OrEmpty(data.relWord.value.rels) else [],
      Etymology(data),
      if data.blngSentsPart.Some? then OrEmpty(data.blngSentsPart.value.sentence) else [])
  }

  // ---- Rendering ----

  const StarCount: nat := 5
  const PhraseLimit: nat := 8
  const SynonymLimit: nat := 3
  const SentenceLimit: nat := 5

  /** The Collins frequency row: shown only for a positive star value,
      always five icons, icon `i` filled exactly when `i` is below the star
      value. */
  function StarRow(star: real): (r: Option<seq<bool>>)
    ensures r.Some? <==> star > 0.0
    ensures r.Some? ==> |r.value| == StarCount
    ensures r.Some? ==> forall i :: 0 <= i < |r.value| ==> (r.value[i] <==> (i as real) < star)
  {
    if star > 0.0 then Some(seq(StarCount, i => (i as real) < star)) else None
  }

  /** The filled icons come first, and a whole star value from 1 to 5
      fills exactly that many. */
  lemma StarRowShape(star: real, i: nat, j: nat)
    requires star > 0.0 && j <= i < StarCount
    ensures StarRow(star).value[i] ==> StarRow(star).value[j]
    ensures star == star.Floor as real ==> (StarRow(star).value[i] <==> i < star.Floor)
  {
  }

  /** One rendered Collins entry: part of speech (blank when missing), the
      definition, its example sentences, and whether a divider follows. */
  datatype CollinsRow = CollinsRow(pos: string, definition: Option<string>, examples: seq<ExamSentence>, divider: bool)

  /** The entry at index `i`, or nothing when it has no translation entry. */
  function CollinsRowAt(entries: seq<CollinsEntry>, i: nat): (r: Option<CollinsRow>)
    requires i < |entries|
    ensures r.None? <==> First(entries[i].tranEntry).None?
    ensures r.Some? ==>
              var t := First(entries[i].tranEntry).value;
              && (r.value.pos == "" <==> t.posEntry.None? || !Truthy(t.posEntry.value.pos))
              && r.value.definition == t.tran
              && (t.posEntry.Some? && Truthy(t.posEntry.value.pos) ==> r.value.pos == t.posEntry.value.pos.value)
              && r.value.examples == OrEmpty(t.examSents)
              && (t.examSents.None? ==> r.value.examples == [])
              && (r.value.divider <==> i < |entries| - 1)
  {
    var t := First(entries[i].tranEntry);
    if t.None? then None
    else
      var te := t.value;
      Some(CollinsRow(OrElse(if te.posEntry.Some? then te.posEntry.value.pos else None, ""),
                      te.tran, OrEmpty(te.examSents), i < |entries| - 1))
  }

  /** Keeps the rows that are present, in order. */
  function PresentRows(xs: seq<Option<CollinsRow>>): (r: seq<CollinsRow>)
    ensures |r| <= |xs|
    ensures forall y :: y in r <==> Some(y) in xs
  {
    if xs == [] then []
    else (if xs[0].Some? then [xs[0].value] else []) + PresentRows(xs[1..])
  }

  /** Dropping absent rows distributes over concatenation, so the rows keep
      the order of their entries. */
  lemma {:induction false} PresentRowsAppend(a: seq<Option<CollinsRow>>, b: seq<Option<CollinsRow>>)
    ensures PresentRows(a + b) == PresentRows(a) + PresentRows(b)
  {
    if a == [] {
      assert a + b == b;
    } else {
      assert (a + b)[1..] == a[1..] + b;
      PresentRowsAppend(a[1..], b);
    }
  }

  /** Every entry rendered or not, in order. */
  function CollinsRowOptions(entries: seq<CollinsEntry>): (o: seq<Option<CollinsRow>>)
    ensures |o| == |entries|
    ensures forall i :: 0 <= i < |entries| ==> o[i] == CollinsRowAt(entries, i)
  {
    seq(|entries|, i requires 0 <= i < |entries| => CollinsRowAt(entries, i))
  }

  /** The rendered Collins entries: a row for every entry with a translation
      entry and for no other. */
  function CollinsRows(entries: seq<CollinsEntry>): (r: seq<CollinsRow>)
    ensures |r| <= |entries|
    ensures forall i :: 0 <= i < |entries| && CollinsRowAt(entries, i).Some? ==> CollinsRowAt(entries, i).value in r
    ensures forall row :: row in r ==> exists i :: 0 <= i < |entries| && CollinsRowAt(entries, i) == Some(row)
  {
    PresentRows(CollinsRowOptions(entries))
  }

  datatype PhraseRow = PhraseRow(headword: Option<string>, gloss: Option<string>)
  datatype SynonymRow = SynonymRow(pos: Option<string>, tran: Option<string>, words: seq<Option<string>>)
  datatype CognateRow = CognateRow(pos: Option<string>, words: seq<RelWord>)
  datatype SentenceRow = SentenceRow(sentence: string, translation: Option<string>, audio: Option<string>)

  /** `i` of an optional `{ l?: { i?: string } }`. */
  function LabelText(x: Option<Labelled>): Option<string> {
    if x.Some? && x.value.l.Some? then x.value.l.value.i else None
  }

  /** `p.phr?.headword?.l?.i` and `p.phr?.trs?.[0]?.tr?.l?.i`. */
  function PhraseRowOf(p: PhraseItem): (r: PhraseRow)
    ensures p.phr.None? ==> r == PhraseRow(None, None)
    ensures r.gloss.Some? ==>
              && p.phr.Some?
              && var first := First(p.phr.value.trs);
              && first.Some? && first.value.tr.Some? && first.value.tr.value.TrObject?
              && r.gloss == LabelText(Some(first.value.tr.value.obj))
    ensures p.phr.Some? ==>
              var first := First(p.phr.value.trs);
              first.Some? && first.value.tr.Some? && first.value.tr.value.TrArray? ==> r.gloss.None?
  {
    if p.phr.None? then PhraseRow(None, None)
    else
      var first := First(p.phr.value.trs);
      var tr := if first.Some? then first.value.tr else None;
      PhraseRow(LabelText(p.phr.value.headword),
                if tr.Some? && tr.value.TrObject? then LabelText(Some(tr.value.obj)) else None)
  }

  /** `group.syno?.pos`, `group.syno?.tran` and the words `w` of `ws`. */
  function SynonymRowOf(g: SynoItem): SynonymRow {
    if g.syno.None? then SynonymRow(None, None, [])
    else
      var ws := OrEmpty(g.syno.value.ws);
      SynonymRow(g.syno.value.pos, g.syno.value.tran, seq(|ws|, j requires 0 <= j < |ws| => ws[j].w))
  }

  function CognateRowOf(g: RelItem): CognateRow {
    if g.rel.None? then CognateRow(None, []) else CognateRow(g.rel.value.pos, OrEmpty(g.rel.value.words))
  }

  /** The sentence (`|| ""`), its translation, and the audio it plays. */
  function SentenceRowOf(s: SentenceItem): SentenceRow {
    if s.pair.None? then SentenceRow("", None, None)
    else SentenceRow(OrElse(s.pair.value.sentence, ""), s.pair.value.translation, s.pair.value.sentenceAudio)
  }

  /** The phrase list: the first 8 phrases, in order. */
  function PhraseRows(phrases: seq<PhraseItem>): (r: seq<PhraseRow>)
    ensures |r| == if |phrases| < PhraseLimit then |phrases| else PhraseLimit
    ensures forall i :: 0 <= i < |r| ==> r[i] == PhraseRowOf(phrases[i])
  {
    var shown := Take(phrases, PhraseLimit);
    seq(|shown|, i requires 0 <= i < |shown| => PhraseRowOf(shown[i]))
  }

  /** The synonym list: the first 3 groups, in order. */
  function SynonymRows(groups: seq<SynoItem>): (r: seq<SynonymRow>)
    ensures |r| == if |groups| < SynonymLimit then |groups| else SynonymLimit
    ensures forall i :: 0 <= i < |r| ==> r[i] == SynonymRowOf(groups[i])
  {
    var shown := Take(groups, SynonymLimit);
    seq(|shown|, i requires 0 <= i < |shown| => SynonymRowOf(shown[i]))
  }

  /** The bilingual sentences: the first 5, in order. */
  function SentenceRows(sentences: seq<SentenceItem>): (r: seq<SentenceRow>)
    ensures |r| == if |sentences| < SentenceLimit then |sentences| else SentenceLimit
    ensures forall i :: 0 <= i < |r| ==> r[i] == SentenceRowOf(sentences[i])
  {
    var shown := Take(sentences, SentenceLimit);
    seq(|shown|, i requires 0 <= i < |shown| => SentenceRowOf(shown[i]))
  }

  /** The cognate groups: all of them, in order. */
  function CognateRows(groups: seq<RelItem>): (r: seq<CognateRow>)
    ensures |r| == |groups|
    ensures forall i :: 0 <= i < |r| ==> r[i] == CognateRowOf(groups[i])
  {
    seq(|groups|, i requires 0 <= i < |groups| => CognateRowOf(groups[i]))
  }

  /** A phonetic spelling with its play button, shown only when non-empty. */
  function Pronunciation(phone: Option<string>): (r: Option<string>)
    ensures r.Some? <==> Truthy(phone)
    ensures r.Some? ==> r == phone
  {
    if Truthy(phone) then phone else None
  }

  /** The detail page. A section is `None` when it is not rendered. */
  datatype Page = Page(
    title: string,
    tags: seq<string>,
    ukPhone: Option<string>,
    usPhone: Option<string>,
    stars: Option<seq<bool>>,
    basicDefs: seq<string>,
    collins: Option<seq<CollinsRow>>,
    phrases: Option<seq<PhraseRow>>,
    synonyms: Option<seq<SynonymRow>>,
    cognates: Option<seq<CognateRow>>,
    etymology: Option<string>,
    sentences: Option<seq<SentenceRow>>)

  /** Lays out the page: a pronunciation appears only when non-empty, each
      list section only when its list is non-empty, and the etymology only
      when non-empty. */
  function Layout(x: Extracted): (p: Page)
    ensures p.title == x.headword && p.tags == x.tags && p.basicDefs == x.basicDefs
    ensures p.ukPhone == Pronunciation(x.ukPhone) && p.usPhone == Pronunciation(x.usPhone)
    ensures p.stars == StarRow(x.star)
    ensures p.collins.Some? <==> |x.collinsEntries| > 0
    ensures p.phrases.Some? <==> |x.phrases| > 0
    ensures p.synonyms.Some? <==> |x.synonyms| > 0
    ensures p.cognates.Some? <==> |x.relWords| > 0
    ensures p.etymology.Some? <==> x.etym != ""
    ensures p.sentences.Some? <==> |x.sentences| > 0
    ensures p.collins.Some? ==> p.collins.value == CollinsRows(x.collinsEntries)
    ensures p.phrases.Some? ==> p.phrases.value == PhraseRows(x.phrases)
    ensures p.synonyms.Some? ==> p.synonyms.value == SynonymRows(x.synonyms)
    ensures p.cognates.Some? ==> p.cognates.value == CognateRows(x.relWords)
    ensures p.etymology.Some? ==> p.etymology.value == x.etym
    ensures p.sentences.Some? ==> p.sentences.value == SentenceRows(x.sentences)
  {
    var collins := if |x.collinsEntries| > 0 then Some(CollinsRows(x.collinsEntries)) else None;
    var phrases := if |x.phrases| > 0 then Some(PhraseRows(x.phrases)) else None;
    var synonyms := if |x.synonyms| > 0 then Some(SynonymRows(x.synonyms)) else None;
    var cognates := if |x.relWords| > 0 then Some(CognateRows(x.relWords)) else None;
    var sentences := if |x.sentences| > 0 then Some(SentenceRows(x.sentences)) else None;
    Page(
      x.headword,
      x.tags,
      Pronunciation(x.ukPhone),
      Pronunciation(x.usPhone),
      StarRow(x.star),
      x.basicDefs,
      collins,
      phrases,
      synonyms,
      cognates,
      if x.etym != "" then Some(x.etym) else None,
      sentences)
  }
}

=== FILE: wrappers.dfy ===
/** An optional value: `None` stands for a JavaScript `undefined`/`null` field. */
module Wrappers {

  datatype Option<+T> = None | Some(value: T) {

    /** The wrapped value, or `default` when there is none (`x ?? default`). */
    function GetOr(default: T): T {
      match this
      case Some(v) => v
      case None => default
    }
  }
}
